=== FILE: README.md ===
# Texted editor core in Dafny

A Dafny model of the core of Texted, a kilo-style terminal text editor
written in C (`main.c`). As intended, Texted puts the terminal in raw mode
and then loops for ever: it draws a frame of `~` rows with a centred welcome
line, places the cursor, reads one key and handles it. The arrow keys move
the cursor within the screen; Ctrl-Q clears the screen and exits. The code
as written falls short of this in three ways, each listed under "Findings"
and modelled both as written and as intended: `main` never sets the screen
size, so the frame is drawn for a screen of no rows and no columns and the
cursor can leave it; `editorReadKey` drops every key that arrives and
decodes a stale byte when none does; and a reported size of zero rows is
accepted.

The model has one module per concern:

- `Wrappers`: the `Option` type.
- `Terminal`: the VT100 / ECMA-48 control sequences the editor writes and
  reads: erase display, cursor home, erase line, hide and show the cursor,
  and the cursor-position report.
- `Keys`: `CTRL_KEY` and `editorReadKey`.
  - The decision table turns an input byte and the two follow-up reads into
    a key code.
  - The plain C `char`'s signedness is a parameter.
  - The read loop is modelled twice: as written, and as evidently intended.
- `Decimal`: stand-ins for `snprintf("%d")` and `sscanf("%d")`. Their
  round trip is proved.
- `CursorReply`: `getCursorPosition`, which is the bounded read loop plus
  the reply parse, and `getWindowSize`.
- `AppendBuffer`: `struct abuf` and `abAppend`. Whether `realloc` succeeds
  is an input.
- `Render`: `editorDrawRows` and `editorRefreshScreen`.
  - The functions give the exact payload a frame must contain.
  - The methods follow the source's loops and appends, and are proved to
    produce that payload.
  - Lemmas count the control bytes of a frame and read the cursor
    placement back.
- `Session`: `editorMoveCursor`, `editorProcessKeypress`, `initEditor` and
  the `main` loop.
  - A run is traced as the frames it draws and the bytes it writes.
  - Lemmas state that the cursor stays on the screen, that Ctrl-Q ends the
    run, and how many frames are drawn.

The terminal and the clock are parameters:

- Each sequence of read outcomes stands for what the terminal delivers.
- A timeout is one outcome among the others.
- The result of the `ioctl` and whether each `write` completed are
  booleans or options.

## Model

| member | source | states |
|---|---|---|
| Keys.CtrlKey | main.c:11 | `CTRL_KEY` keeps the low five bits: the result is in 0..31 and differs from the key by a multiple of 32, and a letter in either case maps to its position in the alphabet |
| Keys.ByteValue | main.c:122 | the `int` a `char` converts to is in -128..127 for a signed `char` and 0..255 for an unsigned one, and is congruent to the byte modulo 256 |
| Keys.DecodeKey | main.c:90-123 | ESC [ A/B/C/D decode to exactly the four arrow codes (if and only if); any other byte decodes to its own value; an unmatched or cut-short escape decodes to ESC; the arrow codes lie outside the range of byte values |
| Keys.DecodeKeyInjective | main.c:120-123 | two different non-escape bytes never decode to the same key |
| Keys.ReadKeyAsWritten | main.c:83-125 | as written, the first read decides: a delivered byte skips the loop, so the function returns no value; a failed read dies; a key comes out exactly when that read timed out, and it is the decision table applied to a `c` that was never written, with the next two reads |
| Keys.ReadKey | main.c:78-125 | the intended loop never ends without a value; it keeps waiting exactly when every read so far timed out; it dies exactly when the first read that does not time out fails, and yields a key exactly when that read delivers a byte |
| Keys.ReadKeyAfterTimeouts | main.c:83-123 | the intended loop skips any number of timeouts, then decodes the first delivered byte with the two reads after it |
| Keys.ReadKeyAsWrittenLosesKeys | main.c:83-125 | a delivered byte is lost by the source but decoded by the intended loop |
| Keys.ReadKeyAsWrittenInventsKeys | main.c:83-122 | when nothing arrives, the source returns the stale `c` as a key, where the intended loop keeps waiting |
| Decimal.ShowNat | main.c:253 | "%d" prints a non-negative number as at least one digit, with no leading zero: a zero digit comes first only in "0" itself |
| Decimal.ShowNatValue | main.c:253 | the digits printed for `n` have the value `n` |
| Decimal.ShowInt | main.c:253 | "%d" prints at least one character, starting with '-' exactly for a negative value and never with white space; `ParseShowInt` reads it back |
| Decimal.ScanIntPair | main.c:156 | "%d;%d" yields a pair exactly when a first conversion succeeds, a ';' follows it directly and a second conversion succeeds after that; the pair is the two converted values |
| Decimal.ParseInt | main.c:156 | one "%d" conversion succeeds exactly when, after white space, a digit or a sign and a digit follow; it consumes the longest run of digits and ends on a digit |
| Decimal.ParseShowInt | main.c:156 | "%d" reads back any printed integer, consuming exactly its characters when a non-digit follows |
| Decimal.ScanShowPair | main.c:156 | "%d;%d" reads back two printed integers joined by ';' |
| CursorReply.ReplyLength | main.c:137-148 | the parsed reply is the bytes before the first 'R', at most 31 of them and no more than the terminal delivered |
| CursorReply.ReadReply | main.c:137-150 | the read loop collects exactly that prefix; it takes at most 31 bytes, the terminating 'R' included when it is read |
| CursorReply.CursorPosition | main.c:127-161 | a position is reported only if the query was written in full, the reply starts with ESC [, and the rest scans as "%d;%d" |
| CursorReply.CursorPositionRoundTrip | main.c:127-161 | the report ESC [ row ; col R of any position that fits the buffer is read back as that position, whether or not the 'R' arrives |
| CursorReply.Reply24By80 | main.c:152-156 | the reply ESC [24;80R gives 24 rows and 80 columns |
| CursorReply.IgnoresAfterTerminator | main.c:143-146 | nothing after the first 'R' influences the result |
| CursorReply.IgnoresBeyondBuffer | main.c:137 | nothing after the first 31 bytes influences the result: an over-long reply is parsed from its first 31 bytes |
| CursorReply.EdgeMoveIsTwelveBytes | main.c:132-170 | the write lengths the source checks, 12 and 4, are the lengths of the two sequences written |
| CursorReply.ProbeWrites | main.c:168-172 | a usable ioctl width sends nothing to the terminal; otherwise the output is the 12-byte edge move, followed by the 4-byte position query only when the edge move went out in full |
| CursorReply.FallbackSizeFollowsProbe | main.c:132-174 | a size taken from the fallback always comes after all 16 probe bytes were written |
| CursorReply.WindowSize | main.c:164-182 | an ioctl report with a non-zero column count is taken as it is, rows included; otherwise there is no size unless the edge move was written in full, and then the size is exactly what the cursor-position fallback reports |
| CursorReply.WindowSizeFromReport | main.c:168-174 | without a usable ioctl report, a well-formed reply ESC [ row ; col, with or without its 'R', sets the size to (row, col) |
| CursorReply.WindowSizeAcceptsEmptyScreen | main.c:168 | a report of 0 rows and 80 columns is accepted as written and refused by the corrected probe |
| CursorReply.ProbeViewport | main.c:164-182 | the corrected probe yields only sizes with at least one row and one column, and agrees with the source whenever the source's answer is such a size |
| AppendBuffer.Append | main.c:184-195 | a successful append puts the bytes after the old content and grows the length by their count; a failed allocation leaves the buffer unchanged; the length stays in step with the content |
| AppendBuffer.AppendAllDropsFailed | main.c:184-195 | after any run of appends, the buffer holds the old content followed by exactly the fragments whose allocation succeeded, whole and in order |
| AppendBuffer.AppendAllSucceeds | main.c:184-195 | when every allocation succeeds, the buffer holds every fragment in order |
| Render.WelcomeRowLayout | main.c:208-228 | the welcome row fits the width and ends with the text cut to the width; the left margin and the unused cells on the right differ by at most one; a non-empty margin is `~` then spaces |
| Render.DrawWelcome | main.c:208-228 | the welcome branch (tilde, padding loop, clamped text) appends exactly the welcome row |
| Render.DrawRow | main.c:206-233 | one row appends the welcome row on the row a third of the way down and `~` on every other row |
| Render.DrawLine | main.c:204-239 | one loop iteration appends the row, the erase-line code, and the separator unless it is the last row |
| Render.DrawRows | main.c:202-241 | the row loop appends the screen: every row with its erase-line code, joined by CR LF |
| Render.RefreshScreen | main.c:243-261 | the single write carries hide cursor, home, the screen, the cursor placement, home and show cursor, in that order |
| Render.LineCounts | main.c:232-235 | with plain welcome text, every drawn line holds exactly one ESC and no CR |
| Render.ScreenCounts | main.c:202-241 | the screen holds one ESC per row and one CR per separator, `rows - 1` of them, because no separator follows the last row |
| Render.ScreenRows | main.c:204-239 | the screen ends with an erase-line code; every row except the welcome row is `~`; no row is wider than the screen |
| Render.CursorToRoundTrip | main.c:253 | the placement ESC [ row ; col H is read back as (row, col) by the "%d;%d" scan of the position report |
| Render.CursorToOrigin | main.c:253 | the cursor at the origin is placed by ESC [1;1H |
| Render.FrameEnvelope | main.c:243-258 | the frame opens with hide cursor and home, carries the screen unchanged, places the cursor at the 1-based position (cy + 1, cx + 1) right after it, and closes with home and show cursor |
| Render.EnvelopeCounts | main.c:247-257 | the controls around the screen add exactly five ESCs and no CR |
| Render.FrameCounts | main.c:243-258 | a frame of `rows` >= 1 rows holds `rows + 5` ESCs and `rows - 1` CRs |
| Session.MoveCursor | main.c:263-292 | a move keeps the screen size and moves one coordinate by at most one cell; non-arrow keys do nothing; an on-screen cursor stays on the screen |
| Session.MoveCursorIsClamped | main.c:263-292 | on a screen with the cursor on it, a move equals the reference motion: one step in the arrow's direction, clamped to the screen |
| Session.MoveCursorUndo | main.c:263-292 | a move that did something is undone by the opposite arrow |
| Session.Handle | main.c:294-312 | Ctrl-Q and a read error clear the screen and exit with status 0 and 1; the session keeps running exactly for the other keys, whose effect is `MoveCursor` (so a non-arrow key changes nothing), and nothing is written while running |
| Session.HandleKeepsBounds | main.c:294-312 | handling a key keeps an on-screen cursor on the screen |
| Session.Run | main.c:329-333 | a running session's first output is the frame of its current state; an exited session writes nothing; a run that is still running has the screen size it started with |
| Session.After | main.c:296-309 | the reference fold of the keys through `MoveCursor` keeps the screen size and an on-screen cursor on the screen |
| Session.RunKeepsBounds | main.c:329-333 | from an on-screen start, every frame drawn and the final state have the cursor on the screen, whatever the keys |
| Session.RunDrawsFrames | main.c:329-333 | with no Ctrl-Q and no read error, the loop writes nothing but frames, one more than there are inputs; frame `i` shows the state `After` the first `i` keys, and the run ends in the state after all of them |
| Session.RunEndsWithExit | main.c:300-303 | a run that exits has written clear screen and cursor home last |
| Session.RunQuit | main.c:300-303 | keys other than Ctrl-Q keep the session running; Ctrl-Q then ends it with status 0, whatever follows |
| Session.RunStops | main.c:294-312 | a session still runs after the inputs exactly when none of them is Ctrl-Q or a read error |
| Session.InitEditor | main.c:314-323 | the cursor starts at the origin with the probed size, after whatever the probe wrote; with no size the editor writes the probe's bytes and then dies with status 1; a usable size puts the cursor on the screen |
| Session.MainAsWritten | main.c:325-335 | as written, the loop runs on the zeroed configuration: a screen of no rows and no columns |
| Session.Main | main.c:314-335 | with `initEditor` called first, the probe's own writes open the trace; a failed probe then dies with nothing but the exit bytes, and otherwise the first frame shows the cursor at the origin of the probed screen; a running session always has a screen of at least one cell |
| Session.MainKeepsBounds | main.c:314-335 | with `initEditor` called first, every frame and the final state have the cursor on the screen |
| Session.MainDrawsFrames | main.c:314-335 | after a usable probe, the loop handles every key: after the probe's bytes come one frame per key plus the first, frame i shows the editor after the first i keys from the origin of the probed screen, and the run ends there |
| Session.RightArrowsOnZeroed | main.c:273-276 | on the zeroed screen, every right arrow moves the cursor one column further |
| Session.MainAsWrittenCursorEscapes | main.c:325-335 | as written, `n` right arrows put the cursor at column `n` of a screen with no columns |
| Session.EmptyScreenCursorEscapes | main.c:285-289 | a 0-row size accepted by the source lets the down arrow move the cursor below the screen; the corrected probe refuses that size |

## Left out

- Raw-mode setup and restoration (`enableRawMode`, `disableRawMode`, `atexit`) are not modelled. They only set terminal attributes, and `die`'s `perror` message goes to standard error.
- `main.c` does not compile as written: the arrow-key `enum` lacks its closing `;`. The model assumes that `;` is there.
- The welcome text is a parameter, limited to the 79 characters its buffer holds. The source formats it with the incomplete directive `%`, whose output is undefined.
- Render.DrawWelcome, Render.DrawRows and Render.RefreshScreen assume every allocation succeeds. What a failed `abAppend` does is stated once, for any sequence of appends, by AppendBuffer.AppendAllDropsFailed. `abFree` is not modelled.
- Render.Frame is defined only when the screen has no rows or a width of zero or more. With a negative width, the source calls `abAppend` with a negative length, which is undefined behaviour.
- Decimal.ParseInt does not model overflow of a C `int` during `sscanf` or `snprintf`. Integers are unbounded here, and "%d" on an out-of-range value is undefined behaviour in C.
- Session.Run uses key codes the read loop has already produced. It is not chained to Keys.ReadKey's read outcomes, so the indeterminate value of Keys.ReadKeyAsWritten is not traced through the loop.
- Session.Run counts the two `write` calls on each exit path as one piece of output.
- A NUL byte inside a cursor-position reply ends the C string early. The model scans the whole buffer instead. That gives the same answer, because the "%d;%d" scan stops at any byte that is not white space, a sign, a digit or `;`.
- CursorReply.ProbeWrites treats a failed `write` as writing nothing. A short write that sends part of its bytes before failing is not traced.
- An over-long cursor-position reply is not rejected: the code parses its first 31 bytes, and the model follows it (CursorReply.IgnoresBeyondBuffer).

## Findings

| source | as written | input that shows it | evidently intended | confidence | as-written member | corrected member |
|---|---|---|---|---|---|---|
| main.c:83-125 | the decision table sits inside `while (read(...) != 1)`, so it runs only after a read that delivered nothing. A delivered byte ends the loop and the function returns no value | a key press, such as the byte `a`, arriving on the first read: the loop is skipped | loop until a read delivers a byte, then decode that byte | not executed | Keys.ReadKeyAsWritten (Keys.ReadKeyAsWrittenLosesKeys, Keys.ReadKeyAsWrittenInventsKeys) | Keys.ReadKey (Keys.ReadKeyAfterTimeouts) |
| main.c:168 | only `ws_col == 0` sends `getWindowSize` to the fallback, so 0 rows, or a non-positive size parsed from the fallback, is accepted | an ioctl report of 0 rows and 80 columns: the bottom edge becomes row -1 and the down arrow moves the cursor off the screen | accept only a screen of at least one row and one column | not executed | CursorReply.WindowSize (CursorReply.WindowSizeAcceptsEmptyScreen, Session.EmptyScreenCursorEscapes) | CursorReply.ProbeViewport (Session.MainKeepsBounds) |
| main.c:325-335 | `main` never calls `initEditor`, so the screen size stays zero and the right edge is column -1 | any right arrow: the cursor moves to column 1 of a screen with no columns, and further with each press | call `initEditor` before the loop | not executed | Session.MainAsWritten (Session.MainAsWrittenCursorEscapes) | Session.Main (Session.MainKeepsBounds) |

=== FILE: append_buffer.dfy ===
/** The append buffer `struct abuf` and `abAppend`. The heap block becomes a
    sequence; whether `realloc` found memory is an input. */
module AppendBuffer {

  /** `b` is the buffer's content and `len` the length field kept beside it. */
  datatype ABuf = ABuf(b: seq<char>, len: int) {
    predicate Valid() {
      len == |b|
    }
  }

  /** `ABUF_INIT`: no content, length zero. */
  const Empty: ABuf := ABuf([], 0)

  /** `abAppend(ab, s, |s|)`. When `realloc` fails the buffer is left as it
      was; otherwise `s` is copied in after the old content. */
  function Append(ab: ABuf, s: seq<char>, allocOk: bool): (r: ABuf)
    ensures allocOk ==> r.b == ab.b + s && r.len == ab.len + |s|
    ensures !allocOk ==> r == ab
    ensures ab.Valid() ==> r.Valid()
    ensures ab.b <= r.b
  {
    if !allocOk then ab else ABuf(ab.b + s, ab.len + |s|)
  }

  /** All fragments, one after the other. */
  function Concat(frags: seq<seq<char>>): (r: seq<char>)
    ensures |frags| == 0 ==> r == []
  {
    if |frags| == 0 then [] else frags[0] + Concat(frags[1..])
  }

  /** The fragments whose allocation succeeded, in order. */
  function Kept(frags: seq<seq<char>>, oks: seq<bool>): (r: seq<seq<char>>)
    requires |frags| == |oks|
    ensures |r| <= |frags|
  {
    if |frags| == 0 then []
    else (if oks[0] then [frags[0]] else []) + Kept(frags[1..], oks[1..])
  }

  /** Successive `abAppend` calls, the i-th with allocation outcome `oks[i]`. */
  function AppendAll(ab: ABuf, frags: seq<seq<char>>, oks: seq<bool>): ABuf
    requires |frags| == |oks|
    decreases |frags|
  {
    if |frags| == 0 then ab
    else AppendAll(Append(ab, frags[0], oks[0]), frags[1..], oks[1..])
  }

  lemma ConcatCons(f: seq<char>, frags: seq<seq<char>>)
    ensures Concat([f] + frags) == f + Concat(frags)
  {
    assert ([f] + frags)[1..] == frags;
  }

  /** A run of appends never corrupts the frame: the result is the old
      content followed by exactly the fragments whose allocation succeeded,
      whole and in order, and the length field stays in step. */
  lemma {:induction false} AppendAllDropsFailed(ab: ABuf, frags: seq<seq<char>>, oks: seq<bool>)
    requires |frags| == |oks|
    ensures AppendAll(ab, frags, oks).b == ab.b + Concat(Kept(frags, oks))
    ensures ab.Valid() ==> AppendAll(ab, frags, oks).Valid()
    decreases |frags|
  {
    if |frags| > 0 {
      var next := Append(ab, frags[0], oks[0]);
      AppendAllDropsFailed(next, frags[1..], oks[1..]);
      var rest := Kept(frags[1..], oks[1..]);
      if oks[0] {
        ConcatCons(frags[0], rest);
        assert Kept(frags, oks) == [frags[0]] + rest;
      } else {
        assert Kept(frags, oks) == rest;
      }
    }
  }

  /** With every allocation succeeding, the buffer holds all fragments. */
  lemma {:induction false} AppendAllSucceeds(ab: ABuf, frags: seq<seq<char>>)
    ensures AppendAll(ab, frags, seq(|frags|, _ => true)).b == ab.b + Concat(frags)
    decreases |frags|
  {
    if |frags| > 0 {
      var oks := seq(|frags|, _ => true);
      assert oks[1..] == seq(|frags| - 1, _ => true);
      AppendAllSucceeds(Append(ab, frags[0], true), frags[1..]);
    }
  }
}

=== FILE: cursor_reply.dfy ===
/** Terminal-size discovery: `getCursorPosition`, which reads and parses the
    reply ESC [ rows ; cols R to a Device Status Report (section 8.3.14 of
    ECMA-48), and `getWindowSize`, which prefers the TIOCGWINSZ ioctl and
    falls back on that query. The bytes the terminal makes available are an
    input sequence: a read past its end fails. */
module CursorReply {
  import opened Wrappers
  import opened Terminal
  import opened Decimal

  /** `sizeof(buf)` in `getCursorPosition`; one byte is kept for the NUL. */
  const BufSize: nat := 32
  const MaxReply: nat := BufSize - 1

  /** How many leading bytes of `s` come before the first 'R', counting at
      most `budget` of them. */
  function LengthBeforeR(s: seq<char>, budget: nat): (n: nat)
    ensures n <= budget && n <= |s|
    ensures 'R' !in s[..n]
    ensures n == budget || n == |s| || s[n] == 'R'
  {
    if budget == 0 || |s| == 0 || s[0] == 'R' then 0
    else
      var n := 1 + LengthBeforeR(s[1..], budget - 1);
      assert s[..n] == [s[0]] + s[1..][..n - 1];
      n
  }

  /** How many bytes of the reply end up in the string that is parsed: the
      bytes before the first 'R', at most `MaxReply` of them, and no more
      than are available. */
  function ReplyLength(avail: seq<char>): (n: nat)
    ensures n <= MaxReply && n <= |avail|
    ensures 'R' !in avail[..n]
    ensures n == MaxReply || n == |avail| || avail[n] == 'R'
  {
    LengthBeforeR(avail, MaxReply)
  }

  /** Bytes free of 'R' followed by nothing or by an 'R' are counted exactly. */
  lemma {:induction false} LengthBeforeTerminator(s: seq<char>, tail: seq<char>, budget: nat)
    requires 'R' !in s && |s| <= budget
    requires tail == [] || tail[0] == 'R'
    ensures LengthBeforeR(s + tail, budget) == |s|
  {
    if |s| > 0 {
      assert (s + tail)[1..] == s[1..] + tail;
      assert 'R' !in s[1..] by {
        assert forall c :: c in s[1..] ==> c in s;
      }
      LengthBeforeTerminator(s[1..], tail, budget - 1);
    }
  }

  /** Only the bytes up to and including the first 'R' are looked at. */
  lemma {:induction false} LengthStopsAtR(pre: seq<char>, x: seq<char>, y: seq<char>, budget: nat)
    ensures LengthBeforeR(pre + ['R'] + x, budget) == LengthBeforeR(pre + ['R'] + y, budget)
    ensures LengthBeforeR(pre + ['R'] + x, budget) <= |pre|
  {
    var a, b := pre + ['R'] + x, pre + ['R'] + y;
    if budget > 0 && |pre| > 0 {
      assert a[1..] == pre[1..] + ['R'] + x;
      assert b[1..] == pre[1..] + ['R'] + y;
      LengthStopsAtR(pre[1..], x, y, budget - 1);
    }
  }

  /** Only the first `budget` bytes are looked at. */
  lemma {:induction false} LengthWithinBudget(pre: seq<char>, x: seq<char>, budget: nat)
    requires |pre| >= budget
    ensures LengthBeforeR(pre + x, budget) == LengthBeforeR(pre, budget)
  {
    if budget > 0 {
      assert (pre + x)[1..] == pre[1..] + x;
      LengthWithinBudget(pre[1..], x, budget - 1);
    }
  }

  /** The read loop of `getCursorPosition`: one byte per read, stopping at
      a failed read, at an 'R' (which is then overwritten by the NUL
      terminator) or when the buffer is full. `consumed` counts the bytes
      taken from the terminal, the 'R' included. */
  method ReadReply(avail: seq<char>) returns (buf: seq<char>, consumed: nat)
    ensures |buf| == ReplyLength(avail) && buf == avail[..|buf|]
    ensures consumed <= MaxReply && consumed <= |avail|
    ensures consumed == |buf| + (if |buf| < MaxReply && |buf| < |avail| && avail[|buf|] == 'R' then 1 else 0)
  {
    var i: nat := 0;
    buf := [];
    consumed := 0;
    while i < MaxReply
      invariant i <= MaxReply && i <= |avail|
      invariant buf == avail[..i] && 'R' !in buf
      invariant consumed == i
    {
      if i >= |avail| {
        break;
      }
      consumed := consumed + 1;
      if avail[i] == 'R' {
        break;
      }
      buf := buf + [avail[i]];
      i := i + 1;
    }
  }

  /** `getCursorPosition`: `queryWritten` is whether the 4-byte ESC [ 6 n
      query was written in full. The reply must start with ESC [ and then
      scan as "%d;%d". A NUL byte read from the terminal would end the
      C string early, but the scan already stops at any byte that is not a
      space, a sign, a digit or ';', so scanning the whole buffer agrees. */
  function CursorPosition(queryWritten: bool, avail: seq<char>): (r: Option<(int, int)>)
    ensures r.Some? ==> queryWritten
    ensures r.Some? ==> ReplyLength(avail) >= 2 && avail[0] == Esc && avail[1] == '['
    ensures r.Some? ==> r == ScanIntPair(avail[2..ReplyLength(avail)])
  {
    var buf := avail[..ReplyLength(avail)];
    if !queryWritten then None
    else if |buf| < 2 || buf[0] != Esc || buf[1] != '[' then None
    else ScanIntPair(buf[2..])
  }

  /** The reply the terminal sends for a cursor at (row, col). */
  function CursorReport(row: int, col: int): seq<char> {
    [Esc, '['] + (ShowInt(row) + ";" + ShowInt(col))
  }

  /** Round trip: a report that fits the buffer is read back, whether or not
      its terminating 'R' arrives; what follows the 'R' is never read. */
  lemma CursorPositionRoundTrip(row: int, col: int, tail: seq<char>)
    requires |CursorReport(row, col)| <= MaxReply
    requires tail == [] || tail[0] == 'R'
    ensures CursorPosition(true, CursorReport(row, col) + tail) == Some((row, col))
  {
    var rep := CursorReport(row, col);
    var body := ShowInt(row) + ";" + ShowInt(col);
    ReportLength(row, col, tail);
    ScanReport(row, col);
    assert (rep + tail)[..|rep|] == rep;
    ReadBack(rep + tail, body, row, col);
  }

  /** A reply whose first 'R' ends an ESC [ prefix and a scannable body
      reads back as that body's pair. */
  lemma ReadBack(avail: seq<char>, body: seq<char>, row: int, col: int)
    requires ReplyLength(avail) == 2 + |body|
    requires avail[..2 + |body|] == [Esc, '['] + body
    requires ScanIntPair(body) == Some((row, col))
    ensures CursorPosition(true, avail) == Some((row, col))
  {
    var n := 2 + |body|;
    assert avail[0] == avail[..n][0] && avail[1] == avail[..n][1];
    assert avail[2..n] == body by {
      assert avail[2..n] == avail[..n][2..];
    }
    CursorPositionOf(avail, n);
  }

  /** The reply length of a report is the whole report. */
  lemma ReportLength(row: int, col: int, tail: seq<char>)
    requires |CursorReport(row, col)| <= MaxReply
    requires tail == [] || tail[0] == 'R'
    ensures ReplyLength(CursorReport(row, col) + tail) == |CursorReport(row, col)|
  {
    ReportHasNoR(row, col);
    LengthBeforeTerminator(CursorReport(row, col), tail, MaxReply);
  }

  /** The pair inside a report scans back. */
  lemma ScanReport(row: int, col: int)
    ensures ScanIntPair(ShowInt(row) + ";" + ShowInt(col)) == Some((row, col))
  {
    var body := ShowInt(row) + ";" + ShowInt(col);
    assert body + [] == body;
    ScanShowPair(row, col, []);
  }

  /** A reply that opens with ESC [ is decided by the "%d;%d" scan. */
  lemma CursorPositionOf(avail: seq<char>, n: nat)
    requires ReplyLength(avail) == n && n >= 2 && avail[0] == Esc && avail[1] == '['
    ensures CursorPosition(true, avail) == ScanIntPair(avail[2..n])
  {
    assert avail[..n][2..] == avail[2..n];
  }

  lemma ReportHasNoR(row: int, col: int)
    ensures 'R' !in CursorReport(row, col)
  {
    var a, b := ShowInt(row), ShowInt(col);
    assert forall i :: 0 <= i < |a| ==> a[i] == '-' || IsDigit(a[i]);
    assert forall i :: 0 <= i < |b| ==> b[i] == '-' || IsDigit(b[i]);
    var rep := CursorReport(row, col);
    assert forall i :: 0 <= i < |rep| ==> rep[i] != 'R';
  }

  /** The usual reply of a 24 x 80 terminal. */
  lemma Reply24By80()
    ensures CursorPosition(true, [Esc] + "[24;80R") == Some((24, 80))
  {
    assert ShowInt(24) == "24" && ShowInt(80) == "80";
    assert [Esc] + "[24;80R" == CursorReport(24, 80) + "R";
    CursorPositionRoundTrip(24, 80, "R");
  }

  /** Nothing after the first 'R' influences the result. */
  lemma IgnoresAfterTerminator(ok: bool, pre: seq<char>, x: seq<char>, y: seq<char>)
    ensures CursorPosition(ok, pre + ['R'] + x) == CursorPosition(ok, pre + ['R'] + y)
  {
    var a, b := pre + ['R'] + x, pre + ['R'] + y;
    LengthStopsAtR(pre, x, y, MaxReply);
    var n := ReplyLength(a);
    assert a[..n] == b[..n];
  }

  /** Nothing after the first `MaxReply` bytes influences the result: an
      over-long reply is parsed from its first 31 bytes, not rejected. */
  lemma IgnoresBeyondBuffer(ok: bool, pre: seq<char>, x: seq<char>)
    requires |pre| == MaxReply
    ensures CursorPosition(ok, pre + x) == CursorPosition(ok, pre)
  {
    LengthWithinBudget(pre, x, MaxReply);
    var n := ReplyLength(pre);
    assert (pre + x)[..n] == pre[..n];
  }

  /** The 12 bytes ESC [ 999 C ESC [ 999 B written before the fallback. */
  lemma EdgeMoveIsTwelveBytes()
    ensures |CursorToEdge| == 12 && |QueryCursor| == 4
  {
  }

  /** What TIOCGWINSZ reports: two `unsigned short` fields. */
  type UShort = x: int | 0 <= x < 0x1_0000

  datatype WinSize = WinSize(rows: UShort, cols: UShort)

  /** `getWindowSize` as written, with rows first. `ioctl` is the ioctl's
      report, `None` when it failed; `edgeWritten` and `queryWritten` say
      whether the two escape sequences were written in full; `avail` is the
      terminal's reply. Only a zero column count sends it to the fallback:
      a zero row count, or any parsed pair, is accepted as it is. */
  function WindowSize(ioctl: Option<WinSize>, edgeWritten: bool, queryWritten: bool, avail: seq<char>): (r: Option<(int, int)>)
    ensures ioctl.Some? && ioctl.value.cols != 0 ==> r == Some((ioctl.value.rows, ioctl.value.cols))
    ensures (ioctl.None? || ioctl.value.cols == 0) && r.Some? ==> edgeWritten
    ensures (ioctl.None? || ioctl.value.cols == 0) && edgeWritten ==> r == CursorPosition(queryWritten, avail)
  {
    if ioctl.None? || ioctl.value.cols == 0 then
      if !edgeWritten then None else CursorPosition(queryWritten, avail)
    else
      Some((ioctl.value.rows, ioctl.value.cols))
  }

  /** The bytes `getWindowSize` sends to the terminal: nothing when the
      ioctl gives a width, otherwise the edge move and, once that is written,
      the position query. A write that fails is taken to have written
      nothing. */
  function ProbeWrites(ioctl: Option<WinSize>, edgeWritten: bool, queryWritten: bool): (r: seq<char>)
    ensures ioctl.Some? && ioctl.value.cols != 0 ==> r == []
    ensures r == [] <==> (ioctl.Some? && ioctl.value.cols != 0) || !edgeWritten
    ensures r == [] || r == CursorToEdge || r == CursorToEdge + QueryCursor
    ensures r == CursorToEdge + QueryCursor <==> (ioctl.None? || ioctl.value.cols == 0) && edgeWritten && queryWritten
  {
    if (ioctl.Some? && ioctl.value.cols != 0) || !edgeWritten then []
    else if queryWritten then CursorToEdge + QueryCursor
    else CursorToEdge
  }

  /** A size taken from the fallback answers all 16 probe bytes: the edge
      move and the query both went out before the reply was read. */
  lemma FallbackSizeFollowsProbe(ioctl: Option<WinSize>, edgeWritten: bool, queryWritten: bool, avail: seq<char>)
    requires ioctl.None? || ioctl.value.cols == 0
    ensures WindowSize(ioctl, edgeWritten, queryWritten, avail).Some? ==>
              ProbeWrites(ioctl, edgeWritten, queryWritten) == CursorToEdge + QueryCursor
              && |ProbeWrites(ioctl, edgeWritten, queryWritten)| == 16
  {
  }

  /** When the ioctl gives no width, a well-formed position report is what
      sets the size. */
  lemma WindowSizeFromReport(ioctl: Option<WinSize>, row: int, col: int, tail: seq<char>)
    requires ioctl.None? || ioctl.value.cols == 0
    requires |CursorReport(row, col)| <= MaxReply
    requires tail == [] || tail[0] == 'R'
    ensures WindowSize(ioctl, true, true, CursorReport(row, col) + tail) == Some((row, col))
  {
    CursorPositionRoundTrip(row, col, tail);
  }

  /** A viewport size usable by the editor: at least one row and column. */
  predicate UsableSize(size: (int, int)) {
    size.0 >= 1 && size.1 >= 1
  }

  /** The source accepts a terminal that reports no rows, and a fallback
      reply of zero or negative sizes. */
  lemma WindowSizeAcceptsEmptyScreen()
    ensures WindowSize(Some(WinSize(0, 80)), true, true, []) == Some((0, 80))
    ensures ProbeViewport(Some(WinSize(0, 80)), true, true, []) == None
  {
  }

  /** `getWindowSize` as evidently intended (a viewport with both sizes
      positive, invalid results being fatal): the source's answer, kept only
      when it is a usable size. */
  function ProbeViewport(ioctl: Option<WinSize>, edgeWritten: bool, queryWritten: bool, avail: seq<char>): (r: Option<(int, int)>)
    ensures r.Some? ==> UsableSize(r.value)
    ensures r.Some? <==> WindowSize(ioctl, edgeWritten, queryWritten, avail).Some?
                         && UsableSize(WindowSize(ioctl, edgeWritten, queryWritten, avail).value)
    ensures r.Some? ==> r == WindowSize(ioctl, edgeWritten, queryWritten, avail)
  {
    match WindowSize(ioctl, edgeWritten, queryWritten, avail)
    case Some(size) => if UsableSize(size) then Some(size) else None
    case None => None
  }
}

=== FILE: decimal.dfy ===
/** Decimal text for integers. `ShowInt` stands in for `snprintf`'s "%d" and
    `ParseInt` for `sscanf`'s "%d" (skip white space, optional sign, at least
    one digit, longest run of digits); `ScanIntPair` stands in for
    `sscanf(s, "%d;%d", ...) == 2`. Integers are unbounded here: the overflow
    that a C `int` conversion would hit is not modelled. */
module Decimal {
  import opened Wrappers

  predicate IsDigit(c: char) {
    '0' <= c <= '9'
  }

  /** `isspace` in the C locale. */
  predicate IsSpace(c: char) {
    c == ' ' || c == '\t' || c == '\n' || c == '\U{0B}' || c == '\U{0C}' || c == '\r'
  }

  predicate AllDigits(s: seq<char>) {
    forall i :: 0 <= i < |s| ==> IsDigit(s[i])
  }

  function DigitChar(d: nat): (c: char)
    requires d < 10
    ensures IsDigit(c) && c as int - '0' as int == d
  {
    ('0' as int + d) as char
  }

  /** The value of a run of decimal digits, most significant first. */
  function DigitsValue(s: seq<char>): nat
    requires AllDigits(s)
  {
    if |s| == 0 then 0 else 10 * DigitsValue(s[..|s| - 1]) + (s[|s| - 1] as int - '0' as int)
  }

  /** The shortest decimal spelling of `n`: digits only, no leading zero. */
  function ShowNat(n: nat): (s: seq<char>)
    ensures 1 <= |s| && AllDigits(s)
    ensures n > 0 ==> s[0] != '0'
    ensures s[0] == '0' ==> |s| == 1
  {
    if n < 10 then [DigitChar(n)] else ShowNat(n / 10) + [DigitChar(n % 10)]
  }

  /** What "%d" prints: a minus sign for negative values, then `ShowNat`. */
  function ShowInt(i: int): (s: seq<char>)
    ensures 1 <= |s|
    ensures s[0] == '-' <==> i < 0
    ensures !IsSpace(s[0])
  {
    if i < 0 then "-" + ShowNat(-i) else ShowNat(i)
  }

  /** Length of the longest prefix of `s` made of digits. */
  function DigitRun(s: seq<char>): (k: nat)
    ensures k <= |s| && AllDigits(s[..k])
    ensures k < |s| ==> !IsDigit(s[k])
  {
    if |s| == 0 || !IsDigit(s[0]) then 0
    else
      var k := 1 + DigitRun(s[1..]);
      assert s[..k] == [s[0]] + s[1..][..k - 1];
      k
  }

  /** Length of the longest prefix of `s` made of white space. */
  function SpaceRun(s: seq<char>): (k: nat)
    ensures k <= |s|
    ensures forall i :: 0 <= i < k ==> IsSpace(s[i])
    ensures k < |s| ==> !IsSpace(s[k])
  {
    if |s| == 0 || !IsSpace(s[0]) then 0 else 1 + SpaceRun(s[1..])
  }

  predicate IsSign(c: char) {
    c == '-' || c == '+'
  }

  /** True when, after white space, `s` starts with a digit or with a sign
      followed by a digit: the inputs on which "%d" converts something. */
  predicate StartsNumber(s: seq<char>) {
    var t := s[SpaceRun(s)..];
    (|t| > 0 && IsDigit(t[0])) || (|t| > 1 && IsSign(t[0]) && IsDigit(t[1]))
  }

  /** A signed decimal numeral at the very start of `t` (no white space):
      the value and the number of characters it spans. */
  function ParseSigned(t: seq<char>): (r: Option<(int, nat)>)
    ensures r.Some? <==> (|t| > 0 && IsDigit(t[0])) || (|t| > 1 && IsSign(t[0]) && IsDigit(t[1]))
    ensures r.Some? ==> 0 < r.value.1 <= |t| && IsDigit(t[r.value.1 - 1])
    ensures r.Some? ==> r.value.1 == |t| || !IsDigit(t[r.value.1])
    ensures r.Some? && r.value.0 < 0 ==> t[0] == '-'
  {
    var sign := if |t| > 0 && IsSign(t[0]) then 1 else 0;
    var k := DigitRun(t[sign..]);
    if k == 0 then None
    else
      var m: int := DigitsValue(t[sign..][..k]);
      assert t[sign + k - 1] == t[sign..][k - 1];
      Some((if sign == 1 && t[0] == '-' then -m else m, sign + k))
  }

  /** One "%d" conversion: the value and the number of characters consumed,
      leading white space included. */
  function ParseInt(s: seq<char>): (r: Option<(int, nat)>)
    ensures r.Some? <==> StartsNumber(s)
    ensures r.Some? ==> 0 < r.value.1 <= |s| && IsDigit(s[r.value.1 - 1])
    ensures r.Some? ==> r.value.1 == |s| || !IsDigit(s[r.value.1])
    ensures r.Some? && r.value.0 < 0 ==> s[SpaceRun(s)] == '-'
  {
    var w := SpaceRun(s);
    match ParseSigned(s[w..])
    case None => None
    case Some((v, n)) => Some((v, w + n))
  }

  /** `sscanf(s, "%d;%d", &a, &b) == 2`: a number, a literal ';' (no white
      space allowed before it), a second number; anything after is ignored. */
  function ScanIntPair(s: seq<char>): (r: Option<(int, int)>)
    ensures r.Some? ==> StartsNumber(s)
    ensures r.Some? <==> ParseInt(s).Some? && ParseInt(s).value.1 < |s| && s[ParseInt(s).value.1] == ';'
                         && ParseInt(s[ParseInt(s).value.1 + 1..]).Some?
    ensures r.Some? ==> r.value.0 == ParseInt(s).value.0
                        && r.value.1 == ParseInt(s[ParseInt(s).value.1 + 1..]).value.0
  {
    match ParseInt(s)
    case None => None
    case Some((a, n)) =>
      if n < |s| && s[n] == ';' then
        match ParseInt(s[n + 1..])
        case None => None
        case Some((b, _)) => Some((a, b))
      else None
  }

  /** Reading back a printed natural number gives the number. */
  lemma {:induction false} ShowNatValue(n: nat)
    ensures DigitsValue(ShowNat(n)) == n
  {
    if n >= 10 {
      var s := ShowNat(n);
      assert s[..|s| - 1] == ShowNat(n / 10);
      ShowNatValue(n / 10);
    }
  }

  /** A run of digits followed by a non-digit is consumed exactly. */
  lemma {:induction false} DigitRunOfDigits(d: seq<char>, rest: seq<char>)
    requires AllDigits(d)
    requires |rest| == 0 || !IsDigit(rest[0])
    ensures DigitRun(d + rest) == |d|
  {
    if |d| > 0 {
      assert (d + rest)[1..] == d[1..] + rest;
      DigitRunOfDigits(d[1..], rest);
    }
  }

  /** `ParseSigned` from its parts: the sign, the digit run, its value. */
  lemma ParseSignedOf(t: seq<char>, sign: nat, k: nat, m: int)
    requires sign == (if |t| > 0 && IsSign(t[0]) then 1 else 0)
    requires DigitRun(t[sign..]) == k > 0
    requires AllDigits(t[sign..][..k]) && DigitsValue(t[sign..][..k]) == m
    ensures ParseSigned(t) == Some((if sign == 1 && t[0] == '-' then -m else m, sign + k))
  {
  }

  /** A printed integer is read back from the front of `t`. */
  lemma ParseSignedShowInt(i: int, rest: seq<char>)
    requires |rest| == 0 || !IsDigit(rest[0])
    ensures ParseSigned(ShowInt(i) + rest) == Some((i, |ShowInt(i)|))
  {
    if i < 0 {
      ParseNegatedShowNat(-i, rest);
    } else {
      ParseShowNat(i, rest);
    }
  }

  /** The digits of a natural number are read back with no sign. */
  lemma ParseShowNat(m: nat, rest: seq<char>)
    requires |rest| == 0 || !IsDigit(rest[0])
    ensures ParseSigned(ShowNat(m) + rest) == Some((m, |ShowNat(m)|))
  {
    var d := ShowNat(m);
    var t := d + rest;
    assert !IsSign(t[0]) by {
      assert t[0] == d[0] && IsDigit(d[0]);
    }
    assert t[0..] == d + rest;
    assert DigitRun(t[0..]) == |d| by {
      DigitRunOfDigits(d, rest);
    }
    assert t[0..][..|d|] == d;
    ShowNatValue(m);
    ParseSignedOf(t, 0, |d|, m);
  }

  /** A minus sign and the digits of a natural number are read back as its
      negation. */
  lemma ParseNegatedShowNat(m: nat, rest: seq<char>)
    requires |rest| == 0 || !IsDigit(rest[0])
    ensures ParseSigned("-" + ShowNat(m) + rest) == Some((-(m as int), 1 + |ShowNat(m)|))
  {
    var d := ShowNat(m);
    var t := "-" + d + rest;
    assert t[0] == '-';
    assert t[1..] == d + rest;
    assert DigitRun(t[1..]) == |d| by {
      DigitRunOfDigits(d, rest);
    }
    assert t[1..][..|d|] == d;
    ShowNatValue(m);
    ParseSignedOf(t, 1, |d|, m);
  }

  /** Round trip: "%d" reads back exactly what "%d" printed, consuming all of
      it and nothing of what follows, as long as a non-digit follows. */
  lemma ParseShowInt(i: int, rest: seq<char>)
    requires |rest| == 0 || !IsDigit(rest[0])
    ensures ParseInt(ShowInt(i) + rest) == Some((i, |ShowInt(i)|))
  {
    var s := ShowInt(i) + rest;
    assert !IsSpace(s[0]);
    assert SpaceRun(s) == 0;
    assert s[0..] == s;
    ParseSignedShowInt(i, rest);
  }

  /** The "%d;%d" scan succeeds exactly on two conversions around a ';'. */
  lemma ScanIntPairOf(s: seq<char>, a: int, n: nat, b: int, m: nat)
    requires ParseInt(s) == Some((a, n))
    requires n < |s| && s[n] == ';'
    requires ParseInt(s[n + 1..]) == Some((b, m))
    ensures ScanIntPair(s) == Some((a, b))
  {
  }

  /** Round trip for the pair: "%d;%d" reads back two printed numbers. */
  lemma ScanShowPair(a: int, b: int, rest: seq<char>)
    requires |rest| == 0 || !IsDigit(rest[0])
    ensures ScanIntPair(ShowInt(a) + ";" + ShowInt(b) + rest) == Some((a, b))
  {
    var sa, sb := ShowInt(a), ShowInt(b);
    var tail := ";" + sb + rest;
    var s := sa + tail;
    var n := |sa|;
    assert sa + ";" + sb + rest == s;
    assert ParseInt(s) == Some((a, n)) by {
      ParseShowInt(a, tail);
    }
    assert s[n] == ';' by {
      assert s[n] == tail[0];
    }
    assert ParseInt(s[n + 1..]) == Some((b, |sb|)) by {
      assert s[n + 1..] == sb + rest;
      ParseShowInt(b, rest);
    }
    ScanIntPairOf(s, a, n, b, |sb|);
  }
}

=== FILE: keys.dfy ===
/** Key decoding (`editorReadKey`, `CTRL_KEY`). A key is the C `int` the
    editor switches on: the value of an input byte, or one of four arrow
    codes numbered from 1000 so that they cannot be confused with a byte. */
module Keys {
  import opened Wrappers
  import opened Terminal

  /** A character that one `read` of one byte can deliver. */
  type Byte = c: char | c < '\U{100}'

  /** The arrow codes of the `editorReadKey` enum, in declaration order. */
  const ArrowUp: int := 1000
  const ArrowLeft: int := 1001
  const ArrowDown: int := 1002
  const ArrowRight: int := 1003

  predicate IsArrow(k: int) {
    ArrowUp <= k <= ArrowRight
  }

  /** `CTRL_KEY(k)`, that is `k & 0x1f`: the low five bits. On a two's
      complement `int` this is the Euclidean remainder by 32, which is what
      Dafny's `%` computes, negative `k` included. */
  function CtrlKey(k: int): (r: int)
    ensures 0 <= r < 32
    ensures (k - r) % 32 == 0
    ensures 'a' as int <= k <= 'z' as int ==> r == k - 'a' as int + 1
    ensures 'A' as int <= k <= 'Z' as int ==> r == k - 'A' as int + 1
  {
    k % 32
  }

  /** The quit key, Ctrl-Q. */
  const Quit: int := CtrlKey('q' as int)

  /** Whether the C compiler's plain `char` is signed (x86 ABIs) or
      unsigned (most ARM ABIs); the standard leaves it to the platform. */
  datatype CharSign = Signed | Unsigned

  /** The `int` a `char` holding byte `b` converts to. */
  function ByteValue(b: Byte, sign: CharSign): (v: int)
    ensures sign.Unsigned? ==> 0 <= v < 256
    ensures sign.Signed? ==> -128 <= v < 128
    ensures v % 256 == b as int
  {
    if sign.Signed? && b as int >= 128 then b as int - 256 else b as int
  }

  /** The decision table of `editorReadKey`: the first byte `c` and the
      outcome of the two follow-up reads (`None` when a read did not deliver
      exactly one byte). In the source this table sits inside the body of the
      `while (read(...) != 1)` loop, so it runs only after a read that
      FAILED; `ReadKeyAsWritten` below models that, `ReadKey` the intended
      loop. The table itself is what both evaluate. */
  function DecodeKey(sign: CharSign, c: Byte, seq0: Option<Byte>, seq1: Option<Byte>): (k: int)
    ensures k == ArrowUp <==> c == Esc && seq0 == Some('[') && seq1 == Some('A')
    ensures k == ArrowDown <==> c == Esc && seq0 == Some('[') && seq1 == Some('B')
    ensures k == ArrowRight <==> c == Esc && seq0 == Some('[') && seq1 == Some('C')
    ensures k == ArrowLeft <==> c == Esc && seq0 == Some('[') && seq1 == Some('D')
    ensures c != Esc ==> k == ByteValue(c, sign)
    ensures c == Esc && !IsArrow(k) ==> k == Esc as int
    ensures -128 <= k < 256 <==> !IsArrow(k)
  {
    if c == Esc then
      match (seq0, seq1)
      case (Some('['), Some('A')) => ArrowUp
      case (Some('['), Some('B')) => ArrowDown
      case (Some('['), Some('C')) => ArrowRight
      case (Some('['), Some('D')) => ArrowLeft
      case _ => Esc as int
    else
      ByteValue(c, sign)
  }

  /** Two different non-escape bytes never decode to the same key. */
  lemma DecodeKeyInjective(sign: CharSign, c: Byte, d: Byte, s0: Option<Byte>, s1: Option<Byte>, t0: Option<Byte>, t1: Option<Byte>)
    requires c != Esc && d != Esc
    requires DecodeKey(sign, c, s0, s1) == DecodeKey(sign, d, t0, t1)
    ensures c == d
  {
    assert ByteValue(c, sign) % 256 == c as int;
    assert ByteValue(d, sign) % 256 == d as int;
  }

  /** What one call of `read(fd, &b, 1)` returns: one byte; zero bytes or
      -1 with EAGAIN once the raw-mode timeout (VTIME) expires; or -1 with
      any other error. */
  datatype ReadOutcome = Got(b: Byte) | TimedOut | Failed

  /** What a call of `editorReadKey` comes to. `Died` is the `die("read")`
      exit; `Waiting` means it is still polling after the given outcomes;
      `Undefined` means control reaches the end of the `int` function without
      a `return`, so the caller uses an indeterminate value. */
  datatype KeyResult = Key(k: int) | Died | Waiting | Undefined

  /** The outcome of read number `i`; reads beyond the list time out. */
  function ReadAt(outcomes: seq<ReadOutcome>, i: nat): ReadOutcome {
    if i < |outcomes| then outcomes[i] else TimedOut
  }

  /** A follow-up read as the escape branch sees it: a byte, or not. */
  function FollowUp(outcomes: seq<ReadOutcome>, i: nat): (r: Option<Byte>)
    ensures r.Some? <==> ReadAt(outcomes, i).Got?
  {
    match ReadAt(outcomes, i)
    case Got(b) => Some(b)
    case _ => None
  }

  function TimeOuts(n: nat): (r: seq<ReadOutcome>)
    ensures |r| == n && forall i :: 0 <= i < n ==> r[i] == TimedOut
  {
    if n == 0 then [] else [TimedOut] + TimeOuts(n - 1)
  }

  /** `editorReadKey` as the source's loop runs it: the loop body, and with
      it the decision table, is entered only when the first read did NOT
      deliver a byte, and it then inspects `c`, which that read never wrote
      (`stale` stands for whatever value `c` holds). When the first read
      does deliver a byte the loop is skipped and the function ends without
      a `return`. */
  function ReadKeyAsWritten(sign: CharSign, stale: Byte, outcomes: seq<ReadOutcome>): (r: KeyResult)
    ensures r != Waiting
    ensures ReadAt(outcomes, 0).Got? <==> r == Undefined
    ensures ReadAt(outcomes, 0).Failed? <==> r == Died
    ensures ReadAt(outcomes, 0).TimedOut? <==> r.Key?
    ensures ReadAt(outcomes, 0).TimedOut? ==>
              r.k == DecodeKey(sign, stale, FollowUp(outcomes, 1), FollowUp(outcomes, 2))
  {
    match ReadAt(outcomes, 0)
    case Got(_) => Undefined
    case Failed => Died
    case TimedOut => Key(DecodeKey(sign, stale, FollowUp(outcomes, 1), FollowUp(outcomes, 2)))
  }

  /** `editorReadKey` as evidently intended: poll until a read delivers a
      byte (dying on a real read error), then decode that byte together
      with the follow-up reads. */
  function ReadKey(sign: CharSign, outcomes: seq<ReadOutcome>): (r: KeyResult)
    ensures r != Undefined
    ensures r.Key? ==> exists i :: 0 <= i < |outcomes| && outcomes[i].Got?
    ensures (forall i :: 0 <= i < |outcomes| ==> outcomes[i] == TimedOut) <==> r == Waiting
    ensures r == Died <==> exists i :: SettlesAt(outcomes, i) && outcomes[i].Failed?
    ensures r.Key? <==> exists i :: SettlesAt(outcomes, i) && outcomes[i].Got?
    decreases |outcomes|
  {
    if |outcomes| == 0 then Waiting
    else
      match outcomes[0]
      case TimedOut =>
        var r := ReadKey(sign, outcomes[1..]);
        assert forall i :: 1 <= i < |outcomes| ==> outcomes[i] == outcomes[1..][i - 1];
        SettlesAfterTimeout(outcomes);
        r
      case Failed =>
        assert SettlesAt(outcomes, 0);
        Died
      case Got(c) =>
        assert SettlesAt(outcomes, 0);
        Key(DecodeKey(sign, c, FollowUp(outcomes, 1), FollowUp(outcomes, 2)))
  }

  /** Read `i` is the first that does not time out. */
  predicate SettlesAt(outcomes: seq<ReadOutcome>, i: int) {
    0 <= i < |outcomes| && !outcomes[i].TimedOut? && forall j :: 0 <= j < i ==> outcomes[j].TimedOut?
  }

  /** After a leading timeout, the first read that settles is one later. */
  lemma SettlesAfterTimeout(outcomes: seq<ReadOutcome>)
    requires |outcomes| > 0 && outcomes[0].TimedOut?
    ensures forall i :: SettlesAt(outcomes, i) <==> i >= 1 && SettlesAt(outcomes[1..], i - 1)
  {
    forall i
      ensures SettlesAt(outcomes, i) <==> i >= 1 && SettlesAt(outcomes[1..], i - 1)
    {
      if i >= 1 && i < |outcomes| {
        assert forall j :: 0 <= j < i - 1 ==> outcomes[1..][j] == outcomes[j + 1];
        if SettlesAt(outcomes[1..], i - 1) {
          forall j | 0 <= j < i
            ensures outcomes[j].TimedOut?
          {
            if j > 0 {
              assert outcomes[j] == outcomes[1..][j - 1];
            }
          }
        }
      }
    }
  }

  /** Timeouts before the first byte are skipped: the key is the decoded
      byte with the reads that follow it. */
  lemma {:induction false} ReadKeyAfterTimeouts(sign: CharSign, n: nat, c: Byte, rest: seq<ReadOutcome>)
    ensures ReadKey(sign, TimeOuts(n) + [Got(c)] + rest)
         == Key(DecodeKey(sign, c, FollowUp(rest, 0), FollowUp(rest, 1)))
  {
    var outcomes := TimeOuts(n) + [Got(c)] + rest;
    if n == 0 {
      assert outcomes == [Got(c)] + rest;
      assert ReadAt(outcomes, 1) == ReadAt(rest, 0);
      assert ReadAt(outcomes, 2) == ReadAt(rest, 1);
    } else {
      assert outcomes[1..] == TimeOuts(n - 1) + [Got(c)] + rest;
      ReadKeyAfterTimeouts(sign, n - 1, c, rest);
    }
  }

  /** The source loses every key that arrives: a delivered byte makes
      `editorReadKey` return no value, where the intended loop decodes it. */
  lemma ReadKeyAsWrittenLosesKeys(sign: CharSign, stale: Byte, c: Byte, rest: seq<ReadOutcome>)
    ensures ReadKeyAsWritten(sign, stale, [Got(c)] + rest) == Undefined
    ensures ReadKey(sign, [Got(c)] + rest).Key?
  {
  }

  /** The source invents keys: when nothing arrives before the timeout, it
      decodes the stale content of `c` as if it had been typed, where the
      intended loop keeps polling. */
  lemma ReadKeyAsWrittenInventsKeys(sign: CharSign, stale: Byte)
    requires stale != Esc
    ensures ReadKeyAsWritten(sign, stale, []) == Key(ByteValue(stale, sign))
    ensures ReadKey(sign, []) == Waiting
  {
  }
}

=== FILE: render.dfy ===
/** Frame composition: `editorDrawRows` and `editorRefreshScreen`. The
    functions give the payload a frame should contain; the methods follow
    the source's loops and `abAppend` calls and are proved to build exactly
    that payload. The methods assume every allocation succeeds; what a
    failed one does is stated once, by `AppendBuffer.AppendAllDropsFailed`.
    The welcome text is a parameter: the source formats it with a broken
    format string. */
module Render {
  import opened Terminal
  import opened Decimal
  import opened AppendBuffer
  import opened Wrappers
  import CursorReply

  /** `sizeof(welcome)`: the text must fit with its NUL terminator. */
  const WelcomeBufSize: nat := 80

  /** Text holding neither of the bytes that structure a frame (ESC, CR). */
  predicate PlainText(s: seq<char>) {
    Esc !in s && '\r' !in s
  }

  function Min(a: int, b: int): int {
    if a <= b then a else b
  }

  function Spaces(n: nat): (r: seq<char>)
    ensures |r| == n && forall i :: 0 <= i < n ==> r[i] == ' '
  {
    seq(n, _ => ' ')
  }

  /** The welcome row as `editorDrawRows` builds it: the text cut to the
      width, after a margin of half the spare cells whose first cell is `~`. */
  function WelcomeRow(cols: nat, welcome: seq<char>): seq<char> {
    var shown := Min(|welcome|, cols);
    var padding := (cols - shown) / 2;
    (if padding > 0 then "~" + Spaces(padding - 1) else []) + welcome[..shown]
  }

  /** The welcome row fits the width and is centred: it ends with the first
      `min(len, cols)` characters of the text, the left margin and the
      unused cells on the right differ by at most one, and a non-empty
      margin is `~` followed by spaces. Plain text stays plain. */
  lemma WelcomeRowLayout(cols: nat, welcome: seq<char>)
    ensures var r := WelcomeRow(cols, welcome);
            var shown := Min(|welcome|, cols);
            var pad := |r| - shown;
            && |r| <= cols
            && 0 <= pad
            && r[pad..] == welcome[..shown]
            && 0 <= (cols - |r|) - pad <= 1
            && (pad > 0 ==> r[0] == '~' && forall i :: 1 <= i < pad ==> r[i] == ' ')
            && (PlainText(welcome) ==> PlainText(r))
  {
    var r := WelcomeRow(cols, welcome);
    var shown := Min(|welcome|, cols);
    var padding := (cols - shown) / 2;
    var margin := if padding > 0 then "~" + Spaces(padding - 1) else [];
    assert r == margin + welcome[..shown];
    assert |margin| == padding;
    assert r[padding..] == welcome[..shown];
    assert forall i :: 0 <= i < |r| ==> r[i] == '~' || r[i] == ' ' || r[i] in welcome;
  }

  /** Rows drawn for a screen height: `for (y = 0; y < rows; y++)`. */
  function RowCount(rows: int): nat {
    if rows < 0 then 0 else rows
  }

  /** What row `y` shows before its erase-line code: the welcome row on the
      row a third of the way down, `~` elsewhere. */
  function RowText(rows: int, cols: int, welcome: seq<char>, y: nat): seq<char>
    requires cols >= 0
  {
    if y == rows / 3 then WelcomeRow(cols, welcome) else "~"
  }

  /** The lines of the screen, each followed by its erase-line code. */
  function Lines(rows: int, cols: int, welcome: seq<char>): (ls: seq<seq<char>>)
    requires rows <= 0 || cols >= 0
    ensures |ls| == RowCount(rows)
  {
    seq(RowCount(rows), y requires 0 <= y < RowCount(rows) => RowText(rows, cols, welcome, y) + EraseLine)
  }

  /** Lines with `sep` between consecutive ones and nowhere else. */
  function Join(ls: seq<seq<char>>, sep: seq<char>): seq<char> {
    if |ls| == 0 then []
    else if |ls| == 1 then ls[0]
    else Join(ls[..|ls| - 1], sep) + sep + ls[|ls| - 1]
  }

  /** The screen body `editorDrawRows` appends. */
  function Screen(rows: int, cols: int, welcome: seq<char>): seq<char>
    requires rows <= 0 || cols >= 0
  {
    Join(Lines(rows, cols, welcome), RowSeparator)
  }

  /** `ESC [ row ; col H`, as `snprintf("\x1b[%d;%dH")` prints it: the
      position report's text with the placement final byte. With 32-bit
      values it is at most 26 bytes, so the 32-byte buffer never truncates
      it. */
  function CursorTo(row: int, col: int): seq<char> {
    CursorReply.CursorReport(row, col) + "H"
  }

  /** The controls `editorRefreshScreen` puts around a screen body. */
  function Envelope(body: seq<char>, cx: int, cy: int): seq<char> {
    HideCursor + CursorHome + body + CursorTo(cy + 1, cx + 1) + CursorHome + ShowCursor
  }

  /** The whole payload of one `editorRefreshScreen`. */
  function Frame(rows: int, cols: int, cx: int, cy: int, welcome: seq<char>): seq<char>
    requires rows <= 0 || cols >= 0
  {
    Envelope(Screen(rows, cols, welcome), cx, cy)
  }

  /** The welcome branch of `editorDrawRows`: clamp the length, append `~`
      for the first margin cell, one space per further margin cell
      (`while (padding--)`), then the clamped text. */
  method DrawWelcome(ab: ABuf, cols: nat, welcome: seq<char>) returns (r: ABuf)
    requires |welcome| < WelcomeBufSize
    ensures r.b == ab.b + WelcomeRow(cols, welcome)
    ensures ab.Valid() ==> r.Valid()
  {
    var welcomeLength := |welcome|;
    if welcomeLength > cols {
      welcomeLength := cols;
    }
    var padding := (cols - welcomeLength) / 2;
    ghost var margin: seq<char> := [];
    r := ab;
    if padding != 0 {
      r := Append(r, "~", true);
      margin := "~";
      padding := padding - 1;
    }
    while padding != 0
      invariant padding >= 0
      invariant r.b == ab.b + margin
      invariant ab.Valid() ==> r.Valid()
      invariant margin == (if (cols - welcomeLength) / 2 > 0 then "~" + Spaces((cols - welcomeLength) / 2 - 1 - padding) else [])
      invariant (cols - welcomeLength) / 2 == 0 ==> padding == 0
    {
      r := Append(r, " ", true);
      margin := margin + " ";
      padding := padding - 1;
    }
    r := Append(r, welcome[..welcomeLength], true);
  }

  /** One row of `editorDrawRows`, without its erase-line code. */
  method DrawRow(ab: ABuf, rows: int, cols: int, welcome: seq<char>, y: nat) returns (r: ABuf)
    requires cols >= 0
    requires |welcome| < WelcomeBufSize
    ensures r.b == ab.b + RowText(rows, cols, welcome, y)
    ensures ab.Valid() ==> r.Valid()
  {
    if y == rows / 3 {
      r := DrawWelcome(ab, cols, welcome);
    } else {
      r := Append(ab, "~", true);
    }
  }

  /** One iteration of the row loop: the row, its erase-line code, and
      the separator when another row follows. */
  method DrawLine(ab: ABuf, rows: int, cols: int, welcome: seq<char>, y: nat) returns (r: ABuf)
    requires cols >= 0
    requires |welcome| < WelcomeBufSize
    ensures r.b == ab.b + (RowText(rows, cols, welcome, y) + EraseLine) + (if y < rows - 1 then RowSeparator else [])
    ensures ab.Valid() ==> r.Valid()
  {
    r := DrawRow(ab, rows, cols, welcome, y);
    r := Append(r, EraseLine, true);
    if y < rows - 1 {
      r := Append(r, RowSeparator, true);
    }
  }

  /** What the row loop has appended after `y` rows of `n`. */
  ghost function Drawn(ls: seq<seq<char>>, y: nat, n: nat): seq<char>
    requires y <= |ls|
  {
    if y == 0 then [] else Join(ls[..y], RowSeparator) + (if y < n then RowSeparator else [])
  }

  /** One more row: its line, then a separator unless it is the last. */
  lemma DrawnStep(ls: seq<seq<char>>, y: nat, n: nat)
    requires y < |ls| == n
    ensures Drawn(ls, y, n) + ls[y] + (if y < n - 1 then RowSeparator else []) == Drawn(ls, y + 1, n)
  {
    if y == 0 {
      assert ls[..1] == [ls[0]];
    } else {
      assert ls[..y + 1][..y] == ls[..y];
    }
  }

  /** `editorDrawRows`: every row, its erase-line code, and a separator
      after every row but the last. */
  method DrawRows(ab: ABuf, rows: int, cols: int, welcome: seq<char>) returns (r: ABuf)
    requires rows <= 0 || cols >= 0
    requires |welcome| < WelcomeBufSize
    ensures r.b == ab.b + Screen(rows, cols, welcome)
    ensures ab.Valid() ==> r.Valid()
  {
    ghost var ls := Lines(rows, cols, welcome);
    ghost var n := RowCount(rows);
    ghost var drawn: seq<char> := [];
    r := ab;
    var y := 0;
    while y < rows
      invariant 0 <= y <= n == |ls|
      invariant r.b == ab.b + drawn
      invariant drawn == Drawn(ls, y, n)
      invariant ab.Valid() ==> r.Valid()
    {
      r := DrawLine(r, rows, cols, welcome, y);
      assert RowText(rows, cols, welcome, y) + EraseLine == ls[y];
      drawn := drawn + ls[y] + (if y < n - 1 then RowSeparator else []);
      DrawnStep(ls, y, n);
      y := y + 1;
    }
    assert drawn == Join(ls, RowSeparator) by {
      assert ls[..n] == ls;
    }
  }

  /** `editorRefreshScreen`: the frame is assembled in one buffer and handed
      to a single `write` of `ab.len` bytes; the result is what is written. */
  method RefreshScreen(rows: int, cols: int, cx: int, cy: int, welcome: seq<char>) returns (payload: seq<char>)
    requires rows <= 0 || cols >= 0
    requires |welcome| < WelcomeBufSize
    ensures payload == Frame(rows, cols, cx, cy, welcome)
  {
    ghost var screen := Screen(rows, cols, welcome);
    var ab := Empty;
    ab := Append(ab, HideCursor, true);
    ab := Append(ab, CursorHome, true);
    ab := DrawRows(ab, rows, cols, welcome);
    assert ab.b == HideCursor + CursorHome + screen && ab.Valid();
    var buf := CursorTo(cy + 1, cx + 1);
    ab := Append(ab, buf, true);
    ab := Append(ab, CursorHome, true);
    ab := Append(ab, ShowCursor, true);
    assert ab.b == Frame(rows, cols, cx, cy, welcome);
    payload := ab.b[..ab.len];
  }

  /** Occurrences of `c` in lines joined by `sep`: those of every line plus
      those of the separators, one fewer separator than lines. */
  lemma {:induction false} JoinCount(ls: seq<seq<char>>, sep: seq<char>, c: char, perLine: nat)
    requires forall i :: 0 <= i < |ls| ==> multiset(ls[i])[c] == perLine
    ensures |ls| > 0 ==> multiset(Join(ls, sep))[c] == |ls| * perLine + (|ls| - 1) * multiset(sep)[c]
    decreases |ls|
  {
    if |ls| > 1 {
      var n := |ls|;
      var init := ls[..n - 1];
      var q := multiset(sep)[c];
      JoinCount(init, sep, c, perLine);
      assert multiset(Join(ls, sep))[c] == multiset(Join(init, sep))[c] + q + perLine by {
        assert Join(ls, sep) == Join(init, sep) + sep + ls[n - 1];
      }
      StepCount(n, perLine, q);
    }
  }

  lemma StepCount(n: int, p: int, q: int)
    ensures (n - 1) * p + (n - 2) * q + q + p == n * p + (n - 1) * q
  {
  }

  /** With plain welcome text, no row shows an ESC or a CR of its own. */
  lemma RowTextPlain(rows: int, cols: int, welcome: seq<char>, y: nat)
    requires cols >= 0
    requires PlainText(welcome)
    ensures PlainText(RowText(rows, cols, welcome, y))
  {
    WelcomeRowLayout(cols, welcome);
  }

  /** Every line holds exactly one ESC (that of its erase-line code) and no
      CR. */
  lemma LineCounts(rows: int, cols: int, welcome: seq<char>)
    requires rows <= 0 || cols >= 0
    requires PlainText(welcome)
    ensures forall y :: 0 <= y < RowCount(rows) ==> multiset(Lines(rows, cols, welcome)[y])[Esc] == 1
    ensures forall y :: 0 <= y < RowCount(rows) ==> multiset(Lines(rows, cols, welcome)[y])['\r'] == 0
  {
    var ls := Lines(rows, cols, welcome);
    assert EraseLine == [Esc] + ['[', 'K'];
    forall y | 0 <= y < RowCount(rows)
      ensures multiset(ls[y])[Esc] == 1 && multiset(ls[y])['\r'] == 0
    {
      var t := RowText(rows, cols, welcome, y);
      RowTextPlain(rows, cols, welcome, y);
      assert ls[y] == t + EraseLine;
      assert multiset(t)[Esc] == 0 && multiset(t)['\r'] == 0;
    }
  }

  /** The screen body holds one erase-line ESC per row and one CR per
      separator, `rows - 1` of them: no separator follows the last row. */
  lemma ScreenCounts(rows: int, cols: int, welcome: seq<char>)
    requires rows <= 0 || cols >= 0
    requires PlainText(welcome)
    ensures multiset(Screen(rows, cols, welcome))[Esc] == RowCount(rows)
    ensures multiset(Screen(rows, cols, welcome))['\r'] == if rows <= 0 then 0 else rows - 1
  {
    var ls := Lines(rows, cols, welcome);
    LineCounts(rows, cols, welcome);
    assert multiset(RowSeparator)[Esc] == 0;
    assert RowSeparator == ['\r'] + ['\n'];
    JoinCount(ls, RowSeparator, Esc, 1);
    JoinCount(ls, RowSeparator, '\r', 0);
  }

  /** The screen ends with the last row's erase-line code, not a separator,
      and every row is `~` except the welcome row, which fits the width. */
  lemma ScreenRows(rows: int, cols: int, welcome: seq<char>)
    requires rows >= 1 && cols >= 1
    ensures var s := Screen(rows, cols, welcome);
            |s| >= |EraseLine| && s[|s| - |EraseLine|..] == EraseLine
    ensures forall y :: 0 <= y < rows && y != rows / 3 ==> Lines(rows, cols, welcome)[y] == "~" + EraseLine
    ensures forall y :: 0 <= y < rows ==> |RowText(rows, cols, welcome, y)| <= cols
  {
    var ls := Lines(rows, cols, welcome);
    var last := ls[rows - 1];
    assert last == RowText(rows, cols, welcome, rows - 1) + EraseLine;
    var s := Screen(rows, cols, welcome);
    if rows == 1 {
      assert s == last;
    } else {
      assert s == Join(ls[..rows - 1], RowSeparator) + RowSeparator + last;
    }
    WelcomeRowLayout(cols, welcome);
  }

  /** `ESC [ row ; col H` is read back by the same "%d;%d" scan that reads
      the terminal's position report. */
  lemma CursorToRoundTrip(row: int, col: int, rest: seq<char>)
    ensures var t := CursorTo(row, col) + rest;
            t[..2] == [Esc, '['] && ScanIntPair(t[2..]) == Some((row, col))
  {
    var pair := ShowInt(row) + ";" + ShowInt(col);
    var after := "H" + rest;
    var t := CursorTo(row, col) + rest;
    assert t == [Esc, '['] + (pair + after);
    ScanShowPair(row, col, after);
  }

  /** Slicing a concatenation right after its first part. */
  lemma SliceAfter(pre: seq<char>, x: seq<char>, k: nat)
    requires k <= |x|
    ensures (pre + x)[|pre|..|pre| + k] == x[..k]
    ensures (pre + x)[|pre| + k..] == x[k..]
  {
  }

  /** The characters of a printed number: digits and a minus sign. */
  lemma ShowIntChars(i: int)
    ensures forall j :: 0 <= j < |ShowInt(i)| ==> ShowInt(i)[j] == '-' || IsDigit(ShowInt(i)[j])
  {
    var s := ShowInt(i);
    if i < 0 {
      assert s == "-" + ShowNat(-i);
    }
  }

  /** The frame opens by hiding the cursor and homing it, then draws the
      screen body, then places the cursor at (cy + 1, cx + 1) in the
      1-based coordinates of the protocol, and closes by homing and showing
      the cursor. */
  lemma FrameEnvelope(body: seq<char>, cx: int, cy: int)
    ensures Envelope(body, cx, cy)[..9] == HideCursor + CursorHome
    ensures Envelope(body, cx, cy)[9..9 + |body|] == body
    ensures Envelope(body, cx, cy)[9 + |body|..11 + |body|] == [Esc, '[']
    ensures ScanIntPair(Envelope(body, cx, cy)[11 + |body|..]) == Some((cy + 1, cx + 1))
    ensures var f := Envelope(body, cx, cy); f[|f| - 9..] == CursorHome + ShowCursor
    ensures var cur := CursorTo(cy + 1, cx + 1);
            Envelope(body, cx, cy)[9 + |body|..9 + |body| + |cur|] == cur
  {
    var head := HideCursor + CursorHome;
    var tail := CursorHome + ShowCursor;
    var cur := CursorTo(cy + 1, cx + 1);
    var f := Envelope(body, cx, cy);
    assert |head| == 9 && |tail| == 9;
    assert f == head + body + (cur + tail);
    assert f[..9] == head && f[9..9 + |body|] == body && f[|f| - 9..] == tail by {
      assert f == head + body + cur + tail;
    }
    CursorToRoundTrip(cy + 1, cx + 1, tail);
    SliceAfter(head + body, cur + tail, 2);
    SliceAfter(head + body, cur + tail, |cur|);
  }

  /** Occurrences of a character in six consecutive pieces. */
  lemma CountPieces(a: seq<char>, b: seq<char>, c: seq<char>, d: seq<char>, e: seq<char>, f: seq<char>, x: char)
    ensures multiset(a + b + c + d + e + f)[x]
         == multiset(a)[x] + multiset(b)[x] + multiset(c)[x] + multiset(d)[x] + multiset(e)[x] + multiset(f)[x]
  {
  }

  /** A control sequence: one ESC, then plain text. */
  lemma ControlCounts(ctl: seq<char>)
    requires |ctl| > 0 && ctl[0] == Esc && PlainText(ctl[1..])
    ensures multiset(ctl)[Esc] == 1 && multiset(ctl)['\r'] == 0
  {
    assert ctl == [Esc] + ctl[1..];
  }

  /** The cursor placement is one control sequence. */
  lemma CursorToCounts(row: int, col: int)
    ensures multiset(CursorTo(row, col))[Esc] == 1 && multiset(CursorTo(row, col))['\r'] == 0
  {
    var a, b := ShowInt(row), ShowInt(col);
    ShowIntChars(row);
    ShowIntChars(col);
    var t := ['['] + a + ";" + b + "H";
    assert CursorTo(row, col) == [Esc] + t;
    assert forall j :: 0 <= j < |t| ==> t[j] != Esc && t[j] != '\r';
    ControlCounts(CursorTo(row, col));
  }

  /** The envelope adds exactly five ESCs, those of its five controls, and
      no CR. */
  lemma EnvelopeCounts(body: seq<char>, cx: int, cy: int)
    ensures multiset(Envelope(body, cx, cy))[Esc] == multiset(body)[Esc] + 5
    ensures multiset(Envelope(body, cx, cy))['\r'] == multiset(body)['\r']
  {
    var cur := CursorTo(cy + 1, cx + 1);
    CursorToCounts(cy + 1, cx + 1);
    FixedControlCounts();
    CountPieces(HideCursor, CursorHome, body, cur, CursorHome, ShowCursor, Esc);
    CountPieces(HideCursor, CursorHome, body, cur, CursorHome, ShowCursor, '\r');
  }

  /** Each fixed control of the envelope is one control sequence. */
  lemma FixedControlCounts()
    ensures multiset(HideCursor)[Esc] == 1 && multiset(HideCursor)['\r'] == 0
    ensures multiset(CursorHome)[Esc] == 1 && multiset(CursorHome)['\r'] == 0
    ensures multiset(ShowCursor)[Esc] == 1 && multiset(ShowCursor)['\r'] == 0
  {
    ControlCounts(HideCursor);
    ControlCounts(CursorHome);
    ControlCounts(ShowCursor);
  }

  /** The origin is placed by ESC [ 1 ; 1 H. */
  lemma CursorToOrigin()
    ensures CursorTo(1, 1) == [Esc] + "[1;1H"
  {
    assert ShowInt(1) == "1";
  }

  /** A frame of `rows` >= 1 rows holds one ESC per erase-line code plus the
      five of its envelope, and one CR per separator. */
  lemma FrameCounts(rows: int, cols: int, cx: int, cy: int, welcome: seq<char>)
    requires rows >= 1 && cols >= 0
    requires PlainText(welcome)
    ensures multiset(Frame(rows, cols, cx, cy, welcome))[Esc] == rows + 5
    ensures multiset(Frame(rows, cols, cx, cy, welcome))['\r'] == rows - 1
  {
    var scr := Screen(rows, cols, welcome);
    ScreenCounts(rows, cols, welcome);
    EnvelopeCounts(scr, cx, cy);
  }
}

=== FILE: session.dfy ===
/** The editor's state and main loop: `editorMoveCursor`,
    `editorProcessKeypress`, `initEditor` and `main`. A session is either
    running with an editor state or has exited with a status; each step
    also yields the bytes written to the terminal. Raw-mode setup and
    restoration are left out. */
module Session {
  import opened Wrappers
  import opened Terminal
  import opened Keys
  import opened CursorReply

  /** `struct editorConfig` without the saved terminal attributes: the
      cursor column and row and the screen size. */
  datatype Editor = Editor(cx: int, cy: int, screenRows: int, screenCols: int) {
    /** A screen of at least one cell with the cursor on it. */
    predicate InBounds() {
      1 <= screenRows && 1 <= screenCols && 0 <= cx < screenCols && 0 <= cy < screenRows
    }
  }

  /** The global `editor` before anything sets it: all zero. */
  const Zeroed: Editor := Editor(0, 0, 0, 0)

  datatype Session = Running(ed: Editor) | Exited(status: int)

  /** A new session state and the bytes written to the terminal on the way. */
  datatype Step = Step(next: Session, out: seq<char>)

  /** What `editorReadKey` handed back: a key, or a read error it died on. */
  datatype Input = Pressed(key: int) | ReadError

  /** Output to the terminal: the frame `editorRefreshScreen` writes for an
      editor state (its bytes are `Render.Frame` of that state, as
      `Render.RefreshScreen` establishes), or bytes written directly (the
      two `write` calls of the exit paths are one piece here). */
  datatype Write = Refresh(ed: Editor) | Raw(bytes: seq<char>)

  /** The state a run ends in and everything it wrote, in order. */
  datatype Trace = Trace(next: Session, writes: seq<Write>)

  /** The bytes `die` and the quit key write before exiting: clear the
      display, home the cursor. */
  const ExitOutput: seq<char> := ClearScreen + CursorHome

  /** `editorMoveCursor`: an arrow moves the cursor one cell unless it
      already sits on the edge it is moving towards; any other key does
      nothing. The edges are compared with `!=`, so a cursor already past
      an edge keeps going. */
  function MoveCursor(e: Editor, key: int): (r: Editor)
    ensures r.screenRows == e.screenRows && r.screenCols == e.screenCols
    ensures !IsArrow(key) ==> r == e
    ensures e.InBounds() ==> r.InBounds()
    ensures (r.cx == e.cx && -1 <= r.cy - e.cy <= 1) || (r.cy == e.cy && -1 <= r.cx - e.cx <= 1)
  {
    if key == ArrowLeft then
      if e.cx != 0 then e.(cx := e.cx - 1) else e
    else if key == ArrowRight then
      if e.cx != e.screenCols - 1 then e.(cx := e.cx + 1) else e
    else if key == ArrowUp then
      if e.cy != 0 then e.(cy := e.cy - 1) else e
    else if key == ArrowDown then
      if e.cy != e.screenRows - 1 then e.(cy := e.cy + 1) else e
    else e
  }

  function Clamp(v: int, lo: int, hi: int): (r: int)
    requires lo <= hi
    ensures lo <= r <= hi
    ensures lo <= v <= hi ==> r == v
  {
    if v < lo then lo else if v > hi then hi else v
  }

  /** The direction of an arrow key as (column, row) offsets. */
  function Direction(key: int): (int, int) {
    if key == ArrowLeft then (-1, 0)
    else if key == ArrowRight then (1, 0)
    else if key == ArrowUp then (0, -1)
    else if key == ArrowDown then (0, 1)
    else (0, 0)
  }

  /** The arrow that undoes another. */
  function Opposite(key: int): int {
    if key == ArrowLeft then ArrowRight
    else if key == ArrowRight then ArrowLeft
    else if key == ArrowUp then ArrowDown
    else if key == ArrowDown then ArrowUp
    else key
  }

  /** Reference cursor motion on a screen: step in the key's direction,
      then clamp to the screen. */
  function Clamped(e: Editor, key: int): Editor
    requires e.InBounds()
  {
    var d := Direction(key);
    e.(cx := Clamp(e.cx + d.0, 0, e.screenCols - 1), cy := Clamp(e.cy + d.1, 0, e.screenRows - 1))
  }

  /** On a screen with the cursor on it, `editorMoveCursor` is clamped
      motion. */
  lemma MoveCursorIsClamped(e: Editor, key: int)
    requires e.InBounds()
    ensures MoveCursor(e, key) == Clamped(e, key)
  {
  }

  /** A move that did something is undone by the opposite arrow. */
  lemma MoveCursorUndo(e: Editor, key: int)
    requires e.InBounds() && IsArrow(key)
    requires MoveCursor(e, key) != e
    ensures MoveCursor(MoveCursor(e, key), Opposite(key)) == e
  {
  }

  /** `editorProcessKeypress` for one key: Ctrl-Q clears the screen and
      exits with status 0, an arrow moves the cursor, any other key is
      ignored. A read error is the `die("read")` inside `editorReadKey`:
      the same clearing, then exit status 1. */
  function Handle(s: Session, input: Input): (r: Step)
    ensures s.Exited? ==> r == Step(s, [])
    ensures r.next.Running? <==> s.Running? && input.Pressed? && input.key != Quit
    ensures r.next.Running? ==> r.next.ed.screenRows == s.ed.screenRows && r.next.ed.screenCols == s.ed.screenCols
    ensures r.next.Running? ==> r.out == []
    ensures r.next.Exited? && s.Running? ==> r.out == ExitOutput
    ensures s.Running? && input == Pressed(Quit) ==> r.next == Exited(0)
    ensures s.Running? && input == ReadError ==> r.next == Exited(1)
    ensures s.Running? && input.Pressed? && input.key != Quit ==> r.next == Running(MoveCursor(s.ed, input.key))
  {
    match s
    case Exited(_) => Step(s, [])
    case Running(e) =>
      match input
      case ReadError => Step(Exited(1), ExitOutput)
      case Pressed(key) =>
        if key == Quit then Step(Exited(0), ExitOutput)
        else if IsArrow(key) then Step(Running(MoveCursor(e, key)), [])
        else Step(s, [])
  }

  /** A running session stays within its screen, key by key. */
  lemma HandleKeepsBounds(s: Session, input: Input)
    requires s.Running? && s.ed.InBounds()
    ensures Handle(s, input).next.Running? ==> Handle(s, input).next.ed.InBounds()
  {
  }

  /** The loop of `main`: draw a frame, then handle one input, until the
      session exits. With no inputs left a running session has drawn its
      frame and is waiting for a key. */
  function Run(s: Session, inputs: seq<Input>): (r: Trace)
    ensures s.Exited? ==> r == Trace(s, [])
    ensures r.next.Running? ==> s.Running? && r.next.ed.screenRows == s.ed.screenRows && r.next.ed.screenCols == s.ed.screenCols
    ensures s.Running? ==> |r.writes| >= 1 && r.writes[0] == Refresh(s.ed)
    decreases |inputs|
  {
    match s
    case Exited(_) => Trace(s, [])
    case Running(e) =>
      if |inputs| == 0 then Trace(s, [Refresh(e)])
      else
        var h := Handle(s, inputs[0]);
        var rest := Run(h.next, inputs[1..]);
        Trace(rest.next, [Refresh(e)] + (if h.out == [] then [] else [Raw(h.out)]) + rest.writes)
  }

  /** Keys that leave a session running: anything but Ctrl-Q. */
  predicate Harmless(inputs: seq<Input>) {
    forall i :: 0 <= i < |inputs| ==> inputs[i].Pressed? && inputs[i].key != Quit
  }

  lemma HarmlessTail(inputs: seq<Input>)
    requires |inputs| > 0
    ensures Harmless(inputs) <==> inputs[0].Pressed? && inputs[0].key != Quit && Harmless(inputs[1..])
  {
    assert forall i :: 0 < i < |inputs| ==> inputs[i] == inputs[1..][i - 1];
  }

  /** Every frame drawn shows the cursor on the screen, and so does the
      state the run ends in, whatever the inputs. */
  lemma {:induction false} RunKeepsBounds(s: Session, inputs: seq<Input>)
    requires s.Running? && s.ed.InBounds()
    ensures Run(s, inputs).next.Running? ==> Run(s, inputs).next.ed.InBounds()
    ensures forall i :: 0 <= i < |Run(s, inputs).writes| && Run(s, inputs).writes[i].Refresh? ==>
              Run(s, inputs).writes[i].ed.InBounds()
    decreases |inputs|
  {
    if |inputs| > 0 {
      var h := Handle(s, inputs[0]);
      HandleKeepsBounds(s, inputs[0]);
      if h.next.Running? {
        RunKeepsBounds(h.next, inputs[1..]);
      }
    }
  }

  /** Reference fold: the editor state after the keys of `inputs`, each
      applied with `MoveCursor`; a read error changes nothing here. */
  function After(e: Editor, inputs: seq<Input>): (r: Editor)
    ensures r.screenRows == e.screenRows && r.screenCols == e.screenCols
    ensures e.InBounds() ==> r.InBounds()
    decreases |inputs|
  {
    if |inputs| == 0 then e
    else After(if inputs[0].Pressed? then MoveCursor(e, inputs[0].key) else e, inputs[1..])
  }

  /** While no Ctrl-Q and no read error arrive, the loop draws one frame per
      input and one more while it waits, and writes nothing else; frame `i`
      shows the state after the first `i` keys, and the run ends in the
      state after all of them. */
  lemma {:induction false} RunDrawsFrames(s: Session, inputs: seq<Input>)
    requires s.Running? && Harmless(inputs)
    ensures |Run(s, inputs).writes| == |inputs| + 1
    ensures forall i :: 0 <= i <= |inputs| ==> Run(s, inputs).writes[i] == Refresh(After(s.ed, inputs[..i]))
    ensures Run(s, inputs).next == Running(After(s.ed, inputs))
    decreases |inputs|
  {
    if |inputs| > 0 {
      HarmlessTail(inputs);
      var h := Handle(s, inputs[0]);
      var tail := inputs[1..];
      RunDrawsFrames(h.next, tail);
      var w := Run(s, inputs).writes;
      assert w == [Refresh(s.ed)] + Run(h.next, tail).writes;
      forall i | 1 <= i <= |inputs|
        ensures w[i] == Refresh(After(s.ed, inputs[..i]))
      {
        assert inputs[..i][1..] == tail[..i - 1];
      }
      assert inputs[..0] == [];
    }
  }

  /** A session that exits has written the exit sequence last. */
  lemma {:induction false} RunEndsWithExit(s: Session, inputs: seq<Input>)
    requires s.Running?
    ensures var r := Run(s, inputs);
            r.next.Exited? ==> r.writes[|r.writes| - 1] == Raw(ExitOutput)
    decreases |inputs|
  {
    if |inputs| > 0 {
      var h := Handle(s, inputs[0]);
      if h.next.Running? {
        RunEndsWithExit(h.next, inputs[1..]);
      }
    }
  }

  /** A session keeps running through any harmless keys, and Ctrl-Q then
      ends it with status 0 whatever follows. */
  lemma {:induction false} RunQuit(s: Session, pre: seq<Input>, post: seq<Input>)
    requires s.Running?
    requires Harmless(pre)
    ensures Run(s, pre).next.Running?
    ensures Run(s, pre + [Pressed(Quit)] + post).next == Exited(0)
    decreases |pre|
  {
    var all := pre + [Pressed(Quit)] + post;
    if |pre| == 0 {
      assert all[0] == Pressed(Quit);
    } else {
      var h := Handle(s, pre[0]);
      HarmlessTail(pre);
      assert all[0] == pre[0];
      assert all[1..] == pre[1..] + [Pressed(Quit)] + post;
      RunQuit(h.next, pre[1..], post);
    }
  }

  /** A running session is still running after the inputs exactly when
      none of them is Ctrl-Q or a read error. */
  lemma {:induction false} RunStops(s: Session, inputs: seq<Input>)
    requires s.Running?
    ensures Run(s, inputs).next.Running? <==> Harmless(inputs)
    decreases |inputs|
  {
    if |inputs| > 0 {
      var h := Handle(s, inputs[0]);
      HarmlessTail(inputs);
      if h.next.Running? {
        RunStops(h.next, inputs[1..]);
      }
    }
  }

  /** `initEditor`: the cursor at the origin and the size the probe
      reported, or `die("getWindowSize")` when there is none. `probed` is
      what the probe itself wrote to the terminal, which comes first. */
  function InitEditor(size: Option<(int, int)>, probed: seq<char>): (r: Step)
    ensures size.None? <==> r.next.Exited?
    ensures size.None? ==> r == Step(Exited(1), probed + ExitOutput)
    ensures size.Some? ==> r.out == probed && r.next.ed.cx == 0 && r.next.ed.cy == 0
    ensures size.Some? ==> (r.next.ed.screenRows, r.next.ed.screenCols) == size.value
    ensures size.Some? && UsableSize(size.value) ==> r.next.ed.InBounds()
  {
    match size
    case None => Step(Exited(1), probed + ExitOutput)
    case Some((rows, cols)) => Step(Running(Editor(0, 0, rows, cols)), probed)
  }

  /** Bytes written directly, as a trace entry; nothing when there are none. */
  function Written(bytes: seq<char>): (r: seq<Write>)
    ensures bytes == [] <==> r == []
    ensures bytes != [] ==> r == [Raw(bytes)]
  {
    if bytes == [] then [] else [Raw(bytes)]
  }

  /** `main` as written: `initEditor` is never called, so the loop runs on
      the zeroed global, a screen of no rows and no columns. */
  function MainAsWritten(inputs: seq<Input>): (r: Trace)
    ensures r.next.Running? ==> r.next.ed.screenRows == 0 && r.next.ed.screenCols == 0
    ensures |r.writes| >= 1 && r.writes[0] == Refresh(Zeroed)
  {
    Run(Running(Zeroed), inputs)
  }

  /** `main` with `initEditor` called first and the window size probed as
      evidently intended (see `CursorReply.ProbeViewport`). The probe's own
      writes open the trace. */
  function Main(ioctl: Option<WinSize>, edgeWritten: bool, queryWritten: bool, avail: seq<char>,
                inputs: seq<Input>): (r: Trace)
    ensures r.next.Running? ==> r.next.ed.screenRows >= 1 && r.next.ed.screenCols >= 1
    ensures var probed := Written(ProbeWrites(ioctl, edgeWritten, queryWritten));
            (ProbeViewport(ioctl, edgeWritten, queryWritten, avail).None?
             <==> r == Trace(Exited(1), probed + [Raw(ExitOutput)]))
    ensures var probed := Written(ProbeWrites(ioctl, edgeWritten, queryWritten));
            |probed| < |r.writes| && r.writes[..|probed|] == probed
    ensures var size := ProbeViewport(ioctl, edgeWritten, queryWritten, avail);
            var probed := Written(ProbeWrites(ioctl, edgeWritten, queryWritten));
            size.Some? ==> r.writes[|probed|] == Refresh(Editor(0, 0, size.value.0, size.value.1))
  {
    var probed := ProbeWrites(ioctl, edgeWritten, queryWritten);
    var init := InitEditor(ProbeViewport(ioctl, edgeWritten, queryWritten, avail), probed);
    match init.next
    case Exited(_) => Trace(init.next, Written(probed) + [Raw(ExitOutput)])
    case Running(_) => Trace(Run(init.next, inputs).next, Written(probed) + Run(init.next, inputs).writes)
  }

  /** Bytes written before a run add no frame to it. */
  lemma FramesAfterWritten(bytes: seq<char>, w: seq<Write>)
    requires forall i :: 0 <= i < |w| && w[i].Refresh? ==> w[i].ed.InBounds()
    ensures var r := Written(bytes) + w;
            forall i :: 0 <= i < |r| && r[i].Refresh? ==> r[i].ed.InBounds()
  {
    var r := Written(bytes) + w;
    var k := |Written(bytes)|;
    forall i | 0 <= i < |r| && r[i].Refresh?
      ensures r[i].ed.InBounds()
    {
      if i >= k {
        assert r[i] == w[i - k];
      }
    }
  }

  /** With `initEditor` in place every frame shows the cursor on the
      screen, and so does the state the run ends in. */
  lemma MainKeepsBounds(ioctl: Option<WinSize>, edgeWritten: bool, queryWritten: bool, avail: seq<char>,
                        inputs: seq<Input>)
    ensures var r := Main(ioctl, edgeWritten, queryWritten, avail, inputs);
            r.next.Running? ==> r.next.ed.InBounds()
    ensures var r := Main(ioctl, edgeWritten, queryWritten, avail, inputs);
            forall i :: 0 <= i < |r.writes| && r.writes[i].Refresh? ==> r.writes[i].ed.InBounds()
  {
    var probed := ProbeWrites(ioctl, edgeWritten, queryWritten);
    var init := InitEditor(ProbeViewport(ioctl, edgeWritten, queryWritten, avail), probed);
    if init.next.Running? {
      RunKeepsBounds(init.next, inputs);
      FramesAfterWritten(probed, Run(init.next, inputs).writes);
    }
  }
  /** With a usable probed size and no exit key, the loop after `initEditor`
      draws one frame per key handled, each after the keys so far, starting
      from the origin of the probed screen. */
  lemma MainDrawsFrames(ioctl: Option<WinSize>, edgeWritten: bool, queryWritten: bool, avail: seq<char>,
                        inputs: seq<Input>)
    requires ProbeViewport(ioctl, edgeWritten, queryWritten, avail).Some?
    requires Harmless(inputs)
    ensures var size := ProbeViewport(ioctl, edgeWritten, queryWritten, avail).value;
            var probed := Written(ProbeWrites(ioctl, edgeWritten, queryWritten));
            var r := Main(ioctl, edgeWritten, queryWritten, avail, inputs);
            |r.writes| == |probed| + |inputs| + 1
            && (forall i :: 0 <= i <= |inputs| ==>
                  r.writes[|probed| + i] == Refresh(After(Editor(0, 0, size.0, size.1), inputs[..i])))
            && r.next == Running(After(Editor(0, 0, size.0, size.1), inputs))
  {
    var size := ProbeViewport(ioctl, edgeWritten, queryWritten, avail).value;
    RunDrawsFrames(Running(Editor(0, 0, size.0, size.1)), inputs);
  }



  function Presses(n: nat, key: int): (r: seq<Input>)
    ensures |r| == n && forall i :: 0 <= i < n ==> r[i] == Pressed(key)
  {
    if n == 0 then [] else [Pressed(key)] + Presses(n - 1, key)
  }

  /** On the zeroed screen the right edge is column -1, which a cursor at a
      column >= 0 never equals: every right arrow moves it further. */
  lemma {:induction false} RightArrowsOnZeroed(c: nat, n: nat)
    ensures Run(Running(Zeroed.(cx := c)), Presses(n, ArrowRight)).next == Running(Zeroed.(cx := c + n))
    decreases n
  {
    if n > 0 {
      var inputs := Presses(n, ArrowRight);
      assert inputs[1..] == Presses(n - 1, ArrowRight);
      RightArrowsOnZeroed(c + 1, n - 1);
    }
  }

  /** As written, `n` right arrows put the cursor `n` columns into a screen
      that has none, and the next frame places it there. */
  lemma MainAsWrittenCursorEscapes(n: nat)
    requires n > 0
    ensures MainAsWritten(Presses(n, ArrowRight)).next == Running(Editor(n, 0, 0, 0))
    ensures !Editor(n, 0, 0, 0).InBounds()
  {
    RightArrowsOnZeroed(0, n);
  }

  /** A size with no rows, which `getWindowSize` accepts, lets the down
      arrow move the cursor below the screen: the bottom edge is row -1.
      The corrected probe refuses that size, and the editor dies instead. */
  lemma EmptyScreenCursorEscapes()
    ensures InitEditor(WindowSize(Some(WinSize(0, 80)), true, true, []), []).next == Running(Editor(0, 0, 0, 80))
    ensures MoveCursor(Editor(0, 0, 0, 80), ArrowDown) == Editor(0, 1, 0, 80)
    ensures InitEditor(ProbeViewport(Some(WinSize(0, 80)), true, true, []), []).next == Exited(1)
  {
    WindowSizeAcceptsEmptyScreen();
  }
}

=== FILE: terminal.dfy ===
/** The VT100 / ECMA-48 control sequences the editor writes and recognises.
    Each is a plain string of byte-valued characters. */
module Terminal {

  /** The escape byte, 0x1B, that starts every control sequence. */
  const Esc: char := '\U{1B}'

  /** ESC [ 2 J: erase the whole display. */
  const ClearScreen: string := "\U{1B}[2J"

  /** ESC [ H: move the cursor to row 1, column 1. */
  const CursorHome: string := "\U{1B}[H"

  /** ESC [ K: erase from the cursor to the end of the line. */
  const EraseLine: string := "\U{1B}[K"

  /** ESC [ ? 25 l / ESC [ ? 25 h: hide and show the cursor. */
  const HideCursor: string := "\U{1B}[?25l"
  const ShowCursor: string := "\U{1B}[?25h"

  /** ESC [ 999 C ESC [ 999 B: push the cursor to the bottom-right corner;
      the terminal clamps the move at the screen edge. */
  const CursorToEdge: string := "\U{1B}[999C\U{1B}[999B"

  /** ESC [ 6 n: Device Status Report asking for the cursor position; the
      terminal answers ESC [ row ; col R. */
  const QueryCursor: string := "\U{1B}[6n"

  /** The separator written between two screen rows. */
  const RowSeparator: string := "\r\n"
}

=== FILE: wrappers.dfy ===
/** Optional values: a read that delivered a byte or did not, a probe that
    produced a size or did not. */
module Wrappers {

  datatype Option<+T> = None | Some(value: T)
}
